=== FILE: README.md ===
# Session store of the managed-IT-services website, in Dafny

The site's client-side authentication lives in one React context provider,
`AuthProvider` (`src/context/AuthContext.jsx`). It keeps three pieces of
in-memory state: `isAuthenticated`, `user` and `loading`. Beside them it uses
the browser's local storage, a string-keyed store that survives page
reloads. It offers four operations:

- the mount effect (`Initialize`) rebuilds the user from storage;
- `loginAdmin` matches an e-mail and password against the configured admin
  accounts and, on a match, writes a session;
- `login` is the trusted path for an externally validated user;
- `logout` removes the session keys.

The admin pages and the onboarding page decide what to render from this
state.

The model is organised as follows:

- `wrappers.dfy` (`Wrappers`): `Option`, standing for JavaScript's
  `null`/`undefined`.
- `text.dfy` (`Text`): `toLowerCase` restricted to ASCII, and the decimal text
  of a millisecond timestamp with its parse-back.
- `accounts.dfy` (`Accounts`): the admin account record and `checkAdminLogin`,
  a first-match search.
- `session.dfy` (`Session`): the user record, the storage keys, and what each
  operation does to storage, as functions on a `map<string,string>`. The
  user the mount effect rebuilds is `Restore`.
- `authcontext.dfy` (`AuthContext`): the class `AuthProvider`. Its fields are
  `storage`, `isAuthenticated`, `user` and `loading`, and its methods do the
  `setItem`/`removeItem` calls one at a time. Each method is proved to end in
  the state the `Session` functions describe. `Valid()` is the invariant that
  every operation sets `isAuthenticated` exactly when it sets a user.
- `lifecycle.dfy` (`Lifecycle`): properties across operations. These cover
  reload after each login, logout, and where the in-memory user and the
  stored one differ.
- `pages.dfy` (`Pages`): the role check of the three admin pages and the
  authentication check of the onboarding page, with lemmas tying them to
  the operations.

Parameters stand in for what the code reads from outside:

- The admin account list (`questConfig.ADMIN_ACCOUNTS`, whose file
  `src/config/questConfig` is not part of this model) is a `seq<Account>`.
- The two `Date.now()` readings in `loginAdmin` are two `nat` arguments,
  `idTime` and `tokenTime`. The code reads the clock twice, so the id and the
  token may carry different times.
- The initial contents of local storage are the constructor's argument.

Where the code and the written design of the system disagree, the model follows the code:

- The design says a reload after any successful login round-trips the id,
  the token and the role. In the code this fails in two cases:
  - `login` with an empty id or token authenticates in memory, but a reload
    finds no session (`Lifecycle.LoginReload`).
  - An admin account with an empty role comes back as "user"
    (`Lifecycle.AdminReloadRoundTrip`).
- Beyond those three fields, a reload also differs from the in-memory user:
  an admin's title is never written and so never restored; an empty admin
  name comes back as "User" (`Lifecycle.AdminReloadRoundTrip`); and after
  `login` the e-mail and name come from whatever storage held before
  (`Lifecycle.LoginReloadMatchesMemory`, `Lifecycle.StaleIdentitySurvivesLogin`).
- The design describes a route gate with "pending", "redirect to login" and
  "access denied" outcomes. The routes are not registered in `src/App.jsx`.
  The only checks in code are the pages' own: the admin pages show
  "Access Denied" unless the role is "admin", and the onboarding page shows
  a spinner unless a user is authenticated. `Pages` models those.
- The design calls the role an enumeration of "user" and "admin". In the
  code it is any string taken from configuration or storage.
- The mount effect never resets `user` or `isAuthenticated` when storage
  holds no session. It only sets them when it finds one
  (`AuthContext.AuthProvider.Initialize`).

## Model

| member | source | states |
|---|---|---|
| `Text.Lower` | src/context/AuthContext.jsx:43 | lower-casing keeps the length and folds each character independently |
| `Text.LowerIdempotent` | src/context/AuthContext.jsx:43 | lower-casing is idempotent: a lowered string is left as it is |
| `Text.Decimal` | src/context/AuthContext.jsx:53-54 | a timestamp renders as a non-empty string of digits without a leading zero |
| `Text.DecimalRoundTrip` | src/context/AuthContext.jsx:53-54 | parsing the rendered timestamp gives the timestamp back |
| `Text.DecimalInjective` | src/context/AuthContext.jsx:53-54 | two timestamps render alike exactly when they are equal |
| `Accounts.FindAdmin` | src/context/AuthContext.jsx:42-44 | returns the index of the first account whose e-mail matches ignoring case and whose password matches exactly; `None` exactly when no account matches |
| `Accounts.CheckAdminLogin` | src/context/AuthContext.jsx:41-46 | finds an account exactly when some account matches, and then returns the first matching account in list order |
| `Accounts.CheckAdminLoginIgnoresCase` | src/context/AuthContext.jsx:43 | two typed e-mails that lower-case alike give the same outcome |
| `Accounts.EveryAccountCanLogIn` | src/context/AuthContext.jsx:42-45 | every configured account logs in with its password and its e-mail in any case, and is the one returned unless an earlier entry matches the same input |
| `Session.Restore` | src/context/AuthContext.jsx:21-35 | a user is rebuilt exactly when `token` and `userId` are present and non-empty; id, token and e-mail are copied; role and name fall back to "user" and "User" when absent or empty; there is no title |
| `Session.AdminStorage` | src/context/AuthContext.jsx:61-65 | an admin login adds exactly the five keys `userId`, `token`, `userEmail`, `userRole` and `userName`, holding the account's values, and keeps every other key |
| `Session.LoginStorage` | src/context/AuthContext.jsx:76-81 | `login` writes `userId`, `token` and `userRole = user`; it writes `userEmail` only for a non-empty e-mail and otherwise keeps the old one; it never writes `userName` |
| `Session.LogoutStorage` | src/context/AuthContext.jsx:95-100 | logout removes exactly the six session keys and keeps the rest unchanged |
| `AuthContext.AuthProvider.constructor` | src/context/AuthContext.jsx:15-17 | the provider starts unauthenticated, with no user, loading, over the given storage |
| `AuthContext.AuthProvider.Initialize` | src/context/AuthContext.jsx:19-38 | storage is only read; with a stored session the user becomes `Restore(storage)` and the provider is authenticated; without one the in-memory user is left as it was; loading is cleared in both cases |
| `AuthContext.AuthProvider.LoginAdmin` | src/context/AuthContext.jsx:49-73 | with no match it returns "Invalid credentials" and storage, user and authentication are unchanged; on a match it returns success with `isNewUser` false and the admin user, writes that user to storage, and makes it current |
| `AuthContext.AuthProvider.Login` | src/context/AuthContext.jsx:75-92 | always authenticates with the trusted-path user, writes the trusted-path keys, and returns `newUser` |
| `AuthContext.AuthProvider.Logout` | src/context/AuthContext.jsx:94-103 | removes the session keys, clears the user and authentication, and leaves loading alone |
| `AuthContext.Reload` | src/context/AuthContext.jsx:15-38 | a page load is authenticated exactly when storage holds a session, and its user is the one rebuilt from storage |
| `Lifecycle.AdminReloadRoundTrip` | src/context/AuthContext.jsx:21-65 | a reload after an admin login restores id, token and e-mail; it restores role and name unless they are empty; it drops the title; with non-empty role and name it restores the whole user minus the title |
| `Lifecycle.AdminTokensDistinct` | src/context/AuthContext.jsx:53-54 | two admin sessions share a token exactly when the token clock readings are equal, and likewise for the id |
| `Lifecycle.LoginReload` | src/context/AuthContext.jsx:75-81 | a reload after `login` finds a session exactly when id and token are non-empty; the role is "user", and e-mail and name come from whatever storage held before unless overwritten |
| `Lifecycle.LoginReloadMatchesMemory` | src/context/AuthContext.jsx:75-89 | a reload after `login` rebuilds the in-memory user exactly when id and token are non-empty, either a non-empty e-mail is given or none is given and storage already holds `userEmail` = "", and the stored name is absent, empty or "User"; on storage with no `userEmail`, a `login` without e-mail never reloads as itself |
| `Lifecycle.StaleIdentitySurvivesLogin` | src/context/AuthContext.jsx:61-81 | after an admin login and then a `login` without e-mail, a reload shows the admin's e-mail and, unless it is empty, the admin's name; this differs from the in-memory user whenever that e-mail is non-empty or that name is neither empty nor "User" |
| `Lifecycle.LogoutEndsSession` | src/context/AuthContext.jsx:94-103 | after logout a reload finds no session; other keys read as before; the session keys are all absent; a second logout changes nothing |
| `Lifecycle.AdaLogsIn` | src/context/AuthContext.jsx:41-65 | with the single account admin@example.com/secret/admin/Ada, typing Admin@Example.com finds it, and storage then holds role "admin" and name "Ada" |
| `Pages.AdminPagesAfterReload` | src/pages/admin/SecurityOverview.jsx:96 | after a reload the admin pages open exactly when storage holds a session with `userRole` "admin" |
| `Pages.AdminLoginOpensAdminPages` | src/pages/admin/GlobalPolicies.jsx:60 | an admin login opens the admin pages, both now and after a reload, exactly when the account's role is "admin" |
| `Pages.LoginNeverOpensAdminPages` | src/pages/admin/SystemAdministration.jsx:58 | the `login` path never opens the admin pages, before or after a reload |
| `Pages.LogoutClosesPages` | src/pages/auth/OnboardingPage.jsx:50 | after a reload following logout, neither the admin pages nor the onboarding page render content |

## Left out

- `Text.Lower`: folds only the ASCII letters A to Z. JavaScript's `toLowerCase` applies full Unicode case mapping, which is not modelled, so e-mails that differ only in non-ASCII letter case are treated as different.
- Local storage is a `map<string,string>`. Storage quota errors, storage that is disabled, and other tabs writing to the same storage are not modelled; the code does not handle the first two either.
- `setItem` turns non-string values into text (for example `undefined` becomes `"undefined"`). The model takes the id, token and account fields as strings.
- React's hook scheduling (state updates are batched and applied on re-render), the `useAuth` context lookup and the error it throws outside a provider, and rendering are not modelled. Each operation's state change is taken as applied on return.
- `Date.now()` is a clock read and is passed in as arguments. Its values are not constrained, so the model does not assume that the clock moves forward.
- The route gate with a "pending" state that the system's written design describes is not modelled: `src/App.jsx` registers none of the dashboard, admin or login routes. `loading` is modelled, but no page in the code reads it.
- The onboarding page's redirect to `/login` when unauthenticated (`src/pages/auth/OnboardingPage.jsx:17-23`) is navigation and is not modelled; only its render check is.
- The login form's empty-field check (`src/pages/auth/LoginPage.jsx:27-31`), the onboarding widget, the e-mail relay, and all presentational pages are not modelled.

=== FILE: accounts.dfy ===
/** The admin credential check of the session store (`checkAdminLogin`):
    a first-match search of the configured admin accounts. The account list
    itself is configuration that this model receives as a parameter. */
module Accounts {
  import opened Wrappers
  import opened Text

  /** One configured admin account. `title` may be missing from an entry. */
  datatype Account = Account(email: string, password: string, role: string, name: string, title: Option<string>)

  /** The predicate handed to `find`: the e-mail matches ignoring case and the
      password matches exactly. */
  predicate Matches(a: Account, email: string, password: string) {
    Lower(a.email) == Lower(email) && a.password == password
  }

  /** Index of the first matching account, searching in list order. */
  function FindAdmin(accounts: seq<Account>, email: string, password: string): (r: Option<nat>)
    ensures r.Some? ==> r.value < |accounts| && Matches(accounts[r.value], email, password)
    ensures r.Some? ==> forall j :: 0 <= j < r.value ==> !Matches(accounts[j], email, password)
    ensures r.None? ==> forall j :: 0 <= j < |accounts| ==> !Matches(accounts[j], email, password)
  {
    if accounts == [] then None
    else if Matches(accounts[0], email, password) then Some(0)
    else match FindAdmin(accounts[1..], email, password)
      case None => None
      case Some(k) => Some(k + 1)
  }

  /** `checkAdminLogin(email, password)`: the first configured account whose
      e-mail equals `email` ignoring case and whose password equals
      `password`; `None` (JavaScript's `undefined`) when there is none. */
  function CheckAdminLogin(accounts: seq<Account>, email: string, password: string): (r: Option<Account>)
    ensures r.Some? <==> exists i :: 0 <= i < |accounts| && Matches(accounts[i], email, password)
    ensures r.Some? ==> exists i :: 0 <= i < |accounts| && accounts[i] == r.value
                          && Matches(accounts[i], email, password)
                          && forall j :: 0 <= j < i ==> !Matches(accounts[j], email, password)
  {
    match FindAdmin(accounts, email, password)
    case None => None
    case Some(i) => Some(accounts[i])
  }

  /** The typed e-mail's letter case never changes the outcome. */
  lemma CheckAdminLoginIgnoresCase(accounts: seq<Account>, e1: string, e2: string, password: string)
    requires Lower(e1) == Lower(e2)
    ensures CheckAdminLogin(accounts, e1, password) == CheckAdminLogin(accounts, e2, password)
  {
  }

  /** Every configured account can log in with its own password and its
      e-mail typed in any letter case, and it is the account returned unless
      an earlier entry carries the same e-mail (up to case) and password. */
  lemma EveryAccountCanLogIn(accounts: seq<Account>, i: nat, typed: string)
    requires i < |accounts| && Lower(typed) == Lower(accounts[i].email)
    ensures CheckAdminLogin(accounts, typed, accounts[i].password).Some?
    ensures (forall j :: 0 <= j < i ==> !Matches(accounts[j], typed, accounts[i].password))
            ==> CheckAdminLogin(accounts, typed, accounts[i].password) == Some(accounts[i])
  {
  }
}

=== FILE: authcontext.dfy ===
/** The session store itself (`AuthProvider`): three pieces of in-memory
    state beside the browser's local storage, and the four operations that
    change them. */
module AuthContext {
  import opened Wrappers
  import opened Text
  import opened Accounts
  import opened Session

  /** What `loginAdmin` returns: `{ success: true, isNewUser, user }` or
      `{ success: false, error }`. */
  datatype AdminLoginResult = AdminLoggedIn(isNewUser: bool, user: User) | AdminRejected(error: string)

  class AuthProvider {
    /** The browser's local storage as this tab sees it. */
    var storage: Storage
    var isAuthenticated: bool
    var user: Option<User>
    var loading: bool

    /** Every operation sets `isAuthenticated` exactly when it sets a user.
        This is the class invariant each method keeps; it documents the state
        and no other contract depends on it. */
    predicate Valid()
      reads this
    {
      isAuthenticated <==> user.Some?
    }

    /** Mounting the provider: the initial `useState` values over whatever
        the storage holds. */
    constructor (st: Storage)
      ensures Valid()
      ensures storage == st && !isAuthenticated && user == None && loading
    {
      storage := st;
      isAuthenticated := false;
      user := None;
      loading := true;
    }

    /** The mount effect: rebuild the user from storage when both `token` and
        `userId` are non-empty, then stop loading. Storage is only read, and
        with no session stored the in-memory state is left as it was. */
    method Initialize()
      requires Valid()
      modifies this
      ensures Valid()
      ensures storage == old(storage) && !loading
      ensures Restore(storage).Some? ==> isAuthenticated && user == Restore(storage)
      ensures Restore(storage).None? ==> isAuthenticated == old(isAuthenticated) && user == old(user)
    {
      var token := GetItem(storage, TokenKey);
      var userId := GetItem(storage, UserIdKey);
      var userEmail := GetItem(storage, UserEmailKey);
      var userRole := GetItem(storage, UserRoleKey);
      var userName := GetItem(storage, UserNameKey);
      if Truthy(token) && Truthy(userId) {
        isAuthenticated := true;
        user := Some(User(userId.value, token.value, userEmail,
                          OrElse(userRole, DefaultRole), OrElse(userName, DefaultName), None));
      }
      loading := false;
    }

    /** `loginAdmin(email, password)`. `idTime` and `tokenTime` are the two
        `Date.now()` readings. With no matching account nothing changes and
        the result carries "Invalid credentials"; otherwise five keys are
        written and the new user becomes the current one. */
    method LoginAdmin(accounts: seq<Account>, email: string, password: string, idTime: nat, tokenTime: nat)
      returns (r: AdminLoginResult)
      requires Valid()
      modifies this
      ensures Valid() && loading == old(loading)
      ensures CheckAdminLogin(accounts, email, password).None? ==>
                && r == AdminRejected(InvalidCredentials)
                && storage == old(storage) && user == old(user) && isAuthenticated == old(isAuthenticated)
      ensures CheckAdminLogin(accounts, email, password).Some? ==>
                var a := CheckAdminLogin(accounts, email, password).value;
                && r == AdminLoggedIn(false, AdminUser(a, idTime, tokenTime))
                && storage == AdminStorage(old(storage), a, idTime, tokenTime)
                && user == Some(r.user) && isAuthenticated
    {
      var adminAccount := CheckAdminLogin(accounts, email, password);
      if adminAccount.Some? {
        var a := adminAccount.value;
        var adminUser := User("admin_" + Decimal(idTime), "admin_token_" + Decimal(tokenTime),
                              Some(a.email), a.role, a.name, a.title);
        storage := storage[UserIdKey := adminUser.id];
        storage := storage[TokenKey := adminUser.token];
        storage := storage[UserEmailKey := a.email];
        storage := storage[UserRoleKey := adminUser.role];
        storage := storage[UserNameKey := adminUser.name];
        user := Some(adminUser);
        isAuthenticated := true;
        return AdminLoggedIn(false, adminUser);
      }
      return AdminRejected(InvalidCredentials);
    }

    /** `login({ userId, token, newUser, email })`: the trusted path, which
        always succeeds with role "user" and hands `newUser` back. */
    method Login<T>(userId: string, token: string, newUser: T, email: Option<string>) returns (r: T)
      requires Valid()
      modifies this
      ensures Valid() && loading == old(loading)
      ensures r == newUser
      ensures storage == LoginStorage(old(storage), userId, token, email)
      ensures user == Some(LoginUser(userId, token, email)) && isAuthenticated
    {
      storage := storage[UserIdKey := userId];
      storage := storage[TokenKey := token];
      if Truthy(email) {
        storage := storage[UserEmailKey := email.value];
      }
      storage := storage[UserRoleKey := DefaultRole];
      user := Some(User(userId, token, Some(OrElse(email, "")), DefaultRole, DefaultName, None));
      isAuthenticated := true;
      return newUser;
    }

    /** `logout()`: remove the six session keys and forget the user. */
    method Logout()
      requires Valid()
      modifies this
      ensures Valid() && loading == old(loading)
      ensures storage == LogoutStorage(old(storage))
      ensures user == None && !isAuthenticated
    {
      storage := storage - {UserIdKey};
      storage := storage - {TokenKey};
      storage := storage - {BrowserIdKey};
      storage := storage - {UserEmailKey};
      storage := storage - {UserRoleKey};
      storage := storage - {UserNameKey};
      RemoveOneByOne(old(storage), UserIdKey, TokenKey, BrowserIdKey, UserEmailKey, UserRoleKey, UserNameKey);
      user := None;
      isAuthenticated := false;
    }
  }

  /** Removing six keys one at a time removes the set of them. */
  lemma RemoveOneByOne<K, V>(m: map<K, V>, k1: K, k2: K, k3: K, k4: K, k5: K, k6: K)
    ensures m - {k1} - {k2} - {k3} - {k4} - {k5} - {k6} == m - {k1, k2, k3, k4, k5, k6}
  {
  }

  /** A page load: a fresh provider over the storage, after its mount effect.
      It is authenticated exactly when the storage holds a session. */
  method Reload(st: Storage) returns (p: AuthProvider)
    ensures fresh(p) && p.Valid() && p.storage == st && !p.loading
    ensures p.user == Restore(st) && p.isAuthenticated == HasSession(st)
  {
    p := new AuthProvider(st);
    p.Initialize();
  }
}

=== FILE: lifecycle.dfy ===
/** Properties that relate several operations of the session store: what a
    page reload after each operation rebuilds, what logging out leaves, and
    where the in-memory user and the stored one part ways. */
module Lifecycle {
  import opened Wrappers
  import opened Text
  import opened Accounts
  import opened Session

  /** Reloading after a successful admin login rebuilds the same id, token
      and e-mail. Role and name come back as configured unless they were
      empty (then the defaults "user" and "User" appear), and the title is
      lost because it is never written. */
  lemma AdminReloadRoundTrip(st: Storage, a: Account, idTime: nat, tokenTime: nat)
    ensures var r := Restore(AdminStorage(st, a, idTime, tokenTime));
            var u := AdminUser(a, idTime, tokenTime);
            && r.Some?
            && r.value.id == u.id && r.value.token == u.token && r.value.email == u.email
            && r.value.role == (if a.role == "" then DefaultRole else a.role)
            && r.value.name == (if a.name == "" then DefaultName else a.name)
            && r.value.title == None
    ensures a.role != "" && a.name != "" ==>
              Restore(AdminStorage(st, a, idTime, tokenTime)) == Some(AdminUser(a, idTime, tokenTime).(title := None))
  {
  }

  /** Two admin logins get the same token only when their token clock
      readings are equal. */
  lemma {:induction false} AdminTokensDistinct(a: Account, b: Account, i1: nat, t1: nat, i2: nat, t2: nat)
    ensures AdminUser(a, i1, t1).token == AdminUser(b, i2, t2).token <==> t1 == t2
    ensures AdminUser(a, i1, t1).id == AdminUser(b, i2, t2).id <==> i1 == i2
  {
    var p := "admin_token_";
    if p + Decimal(t1) == p + Decimal(t2) {
      assert Decimal(t1) == (p + Decimal(t1))[|p|..];
      DecimalInjective(t1, t2);
    }
    var q := "admin_";
    if q + Decimal(i1) == q + Decimal(i2) {
      assert Decimal(i1) == (q + Decimal(i1))[|q|..];
      DecimalInjective(i1, i2);
    }
  }

  /** Reloading after `login` rebuilds a session exactly when the supplied id
      and token are non-empty; its role is "user", but its e-mail and name
      are whatever storage held before when `login` did not overwrite them. */
  lemma LoginReload(st: Storage, userId: string, token: string, email: Option<string>)
    ensures Restore(LoginStorage(st, userId, token, email)).Some? <==> userId != "" && token != ""
    ensures userId != "" && token != "" ==>
              var r := Restore(LoginStorage(st, userId, token, email)).value;
              && r.id == userId && r.token == token && r.role == DefaultRole
              && r.email == (if Truthy(email) then email else GetItem(st, UserEmailKey))
              && r.name == OrElse(GetItem(st, UserNameKey), DefaultName)
  {
  }

  /** The user a reload rebuilds after `login` equals the in-memory user
      exactly when id and token are non-empty, either a non-empty e-mail is
      given or none is given and storage already holds `userEmail` = "", and
      the stored name is absent, empty or "User". In particular, on storage with
      no `userEmail`, a `login` without e-mail never reloads as itself: the
      in-memory e-mail is "" while the reloaded one is null. */
  lemma LoginReloadMatchesMemory(st: Storage, userId: string, token: string, email: Option<string>)
    ensures Restore(LoginStorage(st, userId, token, email)) == Some(LoginUser(userId, token, email))
            <==> && userId != "" && token != ""
                 && (if Truthy(email) then true else GetItem(st, UserEmailKey) == Some(""))
                 && OrElse(GetItem(st, UserNameKey), DefaultName) == DefaultName
    ensures UserEmailKey !in st && !Truthy(email) ==>
              Restore(LoginStorage(st, userId, token, email)) != Some(LoginUser(userId, token, email))
  {
    LoginReload(st, userId, token, email);
  }

  /** An admin login followed by a `login` without e-mail (no logout between)
      leaves the admin's name and e-mail in storage. The reloaded user carries
      the admin's e-mail and, unless it is empty, the admin's name, while the
      in-memory user says "User" and "". The two differ whenever the admin's
      e-mail is non-empty or its name is neither empty nor "User". */
  lemma StaleIdentitySurvivesLogin(st: Storage, a: Account, idTime: nat, tokenTime: nat, userId: string, token: string)
    requires userId != "" && token != ""
    ensures var r := Restore(LoginStorage(AdminStorage(st, a, idTime, tokenTime), userId, token, None));
            && r.Some? && r.value.email == Some(a.email)
            && r.value.name == (if a.name == "" then DefaultName else a.name)
    ensures a.email != "" || (a.name != "" && a.name != DefaultName) ==>
              Restore(LoginStorage(AdminStorage(st, a, idTime, tokenTime), userId, token, None))
              != Some(LoginUser(userId, token, None))
  {
  }

  /** After `logout` a reload finds no session, keys outside the six session
      keys read as before, and a second `logout` changes nothing. */
  lemma LogoutEndsSession(st: Storage)
    ensures Restore(LogoutStorage(st)) == None
    ensures forall k :: k !in SessionKeys ==> GetItem(LogoutStorage(st), k) == GetItem(st, k)
    ensures forall k :: k in SessionKeys ==> GetItem(LogoutStorage(st), k) == None
    ensures LogoutStorage(LogoutStorage(st)) == LogoutStorage(st)
  {
  }

  /** The typed and the configured e-mail of the worked example below
      lower-case alike. */
  lemma TypedEmailMatches()
    ensures Lower("Admin@Example.com") == Lower("admin@example.com")
  {
  }

  /** The worked example of an admin login: one configured account, the
      e-mail typed with different capitals. */
  lemma AdaLogsIn(st: Storage, idTime: nat, tokenTime: nat)
    ensures var accounts := [Account("admin@example.com", "secret", "admin", "Ada", None)];
            var found := CheckAdminLogin(accounts, "Admin@Example.com", "secret");
            && found == Some(accounts[0])
            && AdminUser(found.value, idTime, tokenTime).role == "admin"
            && AdminUser(found.value, idTime, tokenTime).name == "Ada"
            && AdminStorage(st, found.value, idTime, tokenTime)[UserRoleKey] == "admin"
            && AdminStorage(st, found.value, idTime, tokenTime)[UserNameKey] == "Ada"
  {
    var accounts := [Account("admin@example.com", "secret", "admin", "Ada", None)];
    TypedEmailMatches();
    EveryAccountCanLogIn(accounts, 0, "Admin@Example.com");
  }
}

=== FILE: pages.dfy ===
/** The access decisions the pages make from the session store's state: the
    admin pages show their content only to a user whose role is "admin" and
    otherwise an in-place "Access Denied" view; the onboarding page shows its
    content only to an authenticated visitor with a user and otherwise a
    loading spinner (its redirect to the login page is navigation and is not
    modelled here). */
module Pages {
  import opened Wrappers
  import opened Accounts
  import opened Session

  /** The admin pages' check `user?.role !== 'admin'`, negated: true when the
      page renders its content rather than "Access Denied". */
  predicate AdminPageRenders(user: Option<User>) {
    user.Some? && user.value.role == "admin"
  }

  /** The onboarding page's check `!isAuthenticated || !user`, negated. */
  predicate OnboardingRenders(isAuthenticated: bool, user: Option<User>) {
    isAuthenticated && user.Some?
  }

  /** After a reload the admin pages open exactly when storage holds a
      session whose `userRole` is "admin": the decision rests on nothing but
      the stored strings. */
  lemma AdminPagesAfterReload(st: Storage)
    ensures AdminPageRenders(Restore(st)) <==> HasSession(st) && GetItem(st, UserRoleKey) == Some("admin")
  {
  }

  /** An admin login opens the admin pages, now and after a reload, exactly
      when the matched account's role is "admin". */
  lemma AdminLoginOpensAdminPages(st: Storage, a: Account, idTime: nat, tokenTime: nat)
    ensures AdminPageRenders(Some(AdminUser(a, idTime, tokenTime))) <==> a.role == "admin"
    ensures AdminPageRenders(Restore(AdminStorage(st, a, idTime, tokenTime))) <==> a.role == "admin"
  {
  }

  /** The `login` path never opens the admin pages, before or after a
      reload. */
  lemma LoginNeverOpensAdminPages(st: Storage, userId: string, token: string, email: Option<string>)
    ensures !AdminPageRenders(Some(LoginUser(userId, token, email)))
    ensures !AdminPageRenders(Restore(LoginStorage(st, userId, token, email)))
  {
  }

  /** After a reload that follows `logout`, neither the admin pages nor the
      onboarding page render their content. */
  lemma LogoutClosesPages(st: Storage)
    ensures !AdminPageRenders(Restore(LogoutStorage(st)))
    ensures !OnboardingRenders(HasSession(LogoutStorage(st)), Restore(LogoutStorage(st)))
  {
  }
}

=== FILE: session.dfy ===
/** The session record and what each operation of the session store does to
    the browser's local storage, as functions on the key/value map. The class
    in module AuthContext performs these writes one `setItem`/`removeItem` at a
    time and is proved to end in the states these functions describe. */
module Session {
  import opened Wrappers
  import opened Text
  import opened Accounts

  /** The in-memory user. `email` is `None` when it was rebuilt from storage
      holding no `userEmail` (`getItem` returned null). */
  datatype User = User(id: string, token: string, email: Option<string>, role: string, name: string, title: Option<string>)

  type Storage = map<string, string>

  const TokenKey := "token"
  const UserIdKey := "userId"
  const UserEmailKey := "userEmail"
  const UserRoleKey := "userRole"
  const UserNameKey := "userName"
  const BrowserIdKey := "browserId"

  /** The keys `logout` removes. */
  const SessionKeys: set<string> := {UserIdKey, TokenKey, BrowserIdKey, UserEmailKey, UserRoleKey, UserNameKey}

  /** The keys a successful admin login writes. */
  const AdminKeys: set<string> := {UserIdKey, TokenKey, UserEmailKey, UserRoleKey, UserNameKey}

  const DefaultRole := "user"
  const DefaultName := "User"
  const InvalidCredentials := "Invalid credentials"

  /** `localStorage.getItem(key)`: the stored string, or `None` for null. */
  function GetItem(st: Storage, key: string): Option<string>
  {
    if key in st then Some(st[key]) else None
  }

  /** JavaScript truthiness of a possibly-null string: present and non-empty. */
  predicate Truthy(v: Option<string>) {
    v.Some? && v.value != ""
  }

  /** `v || fallback` for a possibly-null string. */
  function OrElse(v: Option<string>, fallback: string): string
  {
    if Truthy(v) then v.value else fallback
  }

  /** Whether the storage holds a session the mount effect accepts: both
      `token` and `userId` present and non-empty. */
  predicate HasSession(st: Storage) {
    Truthy(GetItem(st, TokenKey)) && Truthy(GetItem(st, UserIdKey))
  }

  /** The user the mount effect rebuilds from storage, or `None` when it
      finds no session. */
  function Restore(st: Storage): (r: Option<User>)
    ensures r.Some? <==> TokenKey in st && st[TokenKey] != "" && UserIdKey in st && st[UserIdKey] != ""
    ensures r.Some? ==> r.value.id == st[UserIdKey] && r.value.token == st[TokenKey]
    ensures r.Some? ==> r.value.email == GetItem(st, UserEmailKey) && r.value.title == None
    ensures r.Some? && UserRoleKey in st && st[UserRoleKey] != "" ==> r.value.role == st[UserRoleKey]
    ensures r.Some? && !(UserRoleKey in st && st[UserRoleKey] != "") ==> r.value.role == DefaultRole
    ensures r.Some? && UserNameKey in st && st[UserNameKey] != "" ==> r.value.name == st[UserNameKey]
    ensures r.Some? && !(UserNameKey in st && st[UserNameKey] != "") ==> r.value.name == DefaultName
  {
    if HasSession(st) then
      Some(User(st[UserIdKey], st[TokenKey], GetItem(st, UserEmailKey),
                OrElse(GetItem(st, UserRoleKey), DefaultRole),
                OrElse(GetItem(st, UserNameKey), DefaultName), None))
    else None
  }

  /** The user `loginAdmin` creates for a matched account; `idTime` and
      `tokenTime` are the two clock readings taken for the id and the token. */
  function AdminUser(a: Account, idTime: nat, tokenTime: nat): User
  {
    User("admin_" + Decimal(idTime), "admin_token_" + Decimal(tokenTime), Some(a.email), a.role, a.name, a.title)
  }

  /** The storage after a successful admin login for `a`: five keys written,
      the title not among them, every other key as it was. */
  function AdminStorage(st: Storage, a: Account, idTime: nat, tokenTime: nat): (r: Storage)
    ensures r.Keys == st.Keys + AdminKeys
    ensures r[UserIdKey] == "admin_" + Decimal(idTime) && r[TokenKey] == "admin_token_" + Decimal(tokenTime)
    ensures r[UserEmailKey] == a.email && r[UserRoleKey] == a.role && r[UserNameKey] == a.name
    ensures forall k :: k in st && k !in AdminKeys ==> r[k] == st[k]
  {
    var u := AdminUser(a, idTime, tokenTime);
    st[UserIdKey := u.id][TokenKey := u.token][UserEmailKey := a.email][UserRoleKey := u.role][UserNameKey := u.name]
  }

  /** The user `login` creates: role "user", name "User", the e-mail or "". */
  function LoginUser(userId: string, token: string, email: Option<string>): User
  {
    User(userId, token, Some(OrElse(email, "")), DefaultRole, DefaultName, None)
  }

  /** The storage after `login`: `userId`, `token` and `userRole` written,
      `userEmail` only for a non-empty e-mail, `userName` never. */
  function LoginStorage(st: Storage, userId: string, token: string, email: Option<string>): (r: Storage)
    ensures Truthy(email) ==> r.Keys == st.Keys + {UserIdKey, TokenKey, UserEmailKey, UserRoleKey}
                              && r[UserEmailKey] == email.value
    ensures !Truthy(email) ==> r.Keys == st.Keys + {UserIdKey, TokenKey, UserRoleKey}
    ensures r[UserIdKey] == userId && r[TokenKey] == token && r[UserRoleKey] == DefaultRole
    ensures forall k :: k in st && k !in {UserIdKey, TokenKey, UserEmailKey, UserRoleKey} ==> r[k] == st[k]
    ensures !Truthy(email) && UserEmailKey in st ==> r[UserEmailKey] == st[UserEmailKey]
  {
    var withIds := st[UserIdKey := userId][TokenKey := token];
    var withEmail := if Truthy(email) then withIds[UserEmailKey := email.value] else withIds;
    withEmail[UserRoleKey := DefaultRole]
  }

  /** The storage after `logout`: the six session keys gone, the rest kept. */
  function LogoutStorage(st: Storage): (r: Storage)
    ensures r.Keys == st.Keys - SessionKeys
    ensures forall k :: k in r ==> r[k] == st[k]
  {
    st - SessionKeys
  }
}

=== FILE: text.dfy ===
/** The two string operations the session code relies on: lower-casing for the
    case-insensitive e-mail match, and the decimal rendering a template literal
    gives a millisecond timestamp. */
module Text {

  /** Lower-cases one character; only the ASCII letters A to Z are folded. */
  function LowerChar(c: char): char
  {
    if 'A' <= c <= 'Z' then (c as int + 32) as char else c
  }

  /** `s.toLowerCase()`, restricted to ASCII letters. */
  function Lower(s: string): (r: string)
    ensures |r| == |s|
    ensures forall i :: 0 <= i < |s| ==> r[i] == LowerChar(s[i])
  {
    if s == [] then [] else [LowerChar(s[0])] + Lower(s[1..])
  }

  /** Lower-casing twice is lower-casing once. */
  lemma LowerIdempotent(s: string)
    ensures Lower(Lower(s)) == Lower(s)
  {
  }

  function DigitChar(d: nat): char
    requires d < 10
  {
    ('0' as int + d) as char
  }

  predicate IsDigits(s: string) {
    forall i :: 0 <= i < |s| ==> '0' <= s[i] <= '9'
  }

  /** The decimal text of `n`, as `${n}` renders a non-negative integer:
      most significant digit first, no leading zeros. */
  function Decimal(n: nat): (r: string)
    ensures r != [] && IsDigits(r)
    ensures |r| > 1 ==> r[0] != '0'
  {
    if n < 10 then [DigitChar(n)] else Decimal(n / 10) + [DigitChar(n % 10)]
  }

  /** Reads a string of decimal digits back as a number. */
  function ParseDecimal(s: string): nat
    requires IsDigits(s)
  {
    if s == [] then 0
    else 10 * ParseDecimal(s[..|s| - 1]) + (s[|s| - 1] as int - '0' as int)
  }

  /** Rendering a timestamp and reading it back gives the timestamp. */
  lemma {:induction false} DecimalRoundTrip(n: nat)
    ensures ParseDecimal(Decimal(n)) == n
  {
    var r := Decimal(n);
    if n >= 10 {
      DecimalRoundTrip(n / 10);
      assert r[..|r| - 1] == Decimal(n / 10);
    }
  }

  /** Distinct timestamps render to distinct texts. */
  lemma DecimalInjective(m: nat, n: nat)
    ensures Decimal(m) == Decimal(n) <==> m == n
  {
    if Decimal(m) == Decimal(n) {
      DecimalRoundTrip(m);
      DecimalRoundTrip(n);
    }
  }
}

=== FILE: wrappers.dfy ===
/** The optional values the session code passes around: a storage lookup that
    finds nothing (`null` in the browser), an absent e-mail or title. */
module Wrappers {

  datatype Option<+T> = None | Some(value: T)
}
